=== FILE: README.md ===
# Currency converter, modelled in Dafny

A model of the Go package `converter`: a registry of currencies and a
calculator for exchange rates and transaction quotes.

- A **currency** has an ISO code, a precision (the number of decimal places
  amounts in it are rounded to), a buy rate and a sell rate. Both rates are
  quoted against a base currency.
- The **registry** (`Currencies`) is an ordered list of currencies. Codes
  are looked up ignoring letter case.
- **CalculateRate** upper-cases the base, from and to codes. It then applies
  one of four policies, in this order:
  1. the same currency gives rate 1, with no lookups;
  2. a missing base gives `BaseCurrencyNotFound`;
  3. from the base gives the target's sell rate, and into the base gives
     1 / the source's buy rate;
  4. otherwise the cross rate is (1 / from's buy rate) × to's sell rate.
- **NewQuote** computes the rate, then looks up both currencies. It rounds
  amount + fee up at the from-currency's precision, and amount × rate up at
  the to-currency's precision.

Files:

- `ascii.dfy` (module `Ascii`): upper-casing and case-insensitive equality
  of strings.
- `decimal.dfy` (module `Decimal`): decimals as `real`, exact division,
  rounding towards +∞ at a number of decimal places (`RoundCeil`), and Go's
  `int32` conversion.
- `converter.dfy` (module `Converter`): the data model and the four
  operations.
- `converter_facts.dfy` (module `ConverterFacts`): the properties of the
  operations, stated in terms of the caller's codes and the registry's
  records.
- `converter_examples.dfy` (module `ConverterExamples`): the package's test
  cases, proved about the model. The lookup and construction cases use the
  tests' own records. The rate and quote cases use registries built from the
  rates the tests quote, because those tests call an older API.

Errors are a tagged datatype (`EmptyCurrencySource`,
`CurrencyNotFound(code)`, `BaseCurrencyNotFound`, `MissingRegistry`), not
formatted strings. The absent registry pointer of `NewQuote` is `None`. The
quote's timestamp is a parameter, `now`.

Where the documentation and the code disagree, the model follows the code:

- The comment at converter.go:86 says "1 / sell-rate of from". The code at
  converter.go:123 divides by the buy rate, and so does the model. The test
  at converter_test.go:90-96 expects the buy-rate result, 1.18.

Behaviour worth noting:

- The rounding is a plain ceiling (towards +∞) at the currency's precision.
- A quote whose two currencies are equal ignoring case but unknown gets its
  rate of 1. It then fails on the from-currency lookup. That error is
  `EmptyCurrencySource` for an empty registry, otherwise not-found naming the
  code as the caller wrote it.
- Not-found errors raised inside CalculateRate name the upper-cased code.
  Errors from NewQuote's own lookups name the code exactly as given.
- The precision goes through Go's `int32` conversion before rounding. A
  precision that converts to the least `int32` (such as 2^31 on a 64-bit
  platform) leaves the amount unrounded. The decimal library's `RoundCeil`
  returns early when the exponent is at least `-places`, and `-places`
  wraps back to the least `int32` in 32-bit arithmetic, so that test always
  passes. The library's source is not part of this model; the behaviour is
  taken from its published `RoundCeil`.

## Model

| member | source | states |
|---|---|---|
| Ascii.ToUpper | converter.go:93-95 | The upper-cased code equals the input ignoring case and contains no lower-case letter |
| Ascii.EqualFoldIffSameUpper | converter.go:64 | Case-insensitive equality holds exactly when the two strings upper-case to the same string, in both directions |
| Ascii.ToUpperIdempotent | converter.go:93-95 | Upper-casing twice, as the source does, gives the same string as upper-casing once |
| Ascii.EqualFoldIsEquivalence | converter.go:63-67 | Case-insensitive equality of codes is reflexive, symmetric and transitive |
| Decimal.RoundCeil | converter.go:184 | The rounded value is the least multiple of 10^-places that is at least the input, and it is the input itself when the input already has that many decimal places |
| Decimal.RoundCeil32 | converter.go:184-187 | At an int32 number of places, the result is the least multiple of 10^-places at or above the input, except at the least int32: there the input comes back unchanged, because the library's early exit negates the places in 32 bits and the negation wraps |
| Decimal.RoundCeilMonotone | converter.go:187 | Rounding up at a fixed precision preserves the order of amounts |
| Decimal.CeilingIsUnique | converter.go:184 | Only one value is the least multiple of 10^-places above a given number |
| Decimal.CeilingFromBounds | converter.go:187 | A number strictly above (k-1) units and at most k units of 10^-places rounds up to exactly k units |
| Decimal.ToInt32 | converter.go:184 | The int32 conversion of the precision gives a value in the 32-bit signed range, congruent to the input modulo 2^32, and unchanged when the input is already in range |
| Decimal.Div | converter.go:123 | The quotient times the non-zero divisor gives back the dividend |
| Converter.NewCurrencies | converter.go:47-51 | Construction fails with the empty-source error exactly when the decoded list is empty; otherwise the registry holds that list in the same order |
| Converter.IndexOfCode | converter.go:63-67 | The search returns the first position at or after the start whose code matches the query ignoring case; when it finds none, no position from there on matches |
| Converter.FindCurrency | converter.go:55-70 | An empty registry reports the empty-source error before any search; a hit is the first record matching the query ignoring case; a miss is a not-found error carrying the query unchanged, and no record matches |
| Converter.CalculateRate | converter.go:92-138 | A failed rate is only ever base-not-found or not-found, never the empty-source error, and a not-found error names an upper-case code |
| Converter.RoundedAt | converter.go:184-187 | An amount is rounded up to the least multiple of 10^-p at or above it, where p is the currency's precision truncated to 32 bits as the source's int32 conversion does; when p is the least int32 the amount is left unrounded |
| Converter.Priced | converter.go:179-189 | The amount to deduct is the least multiple of the from-precision's unit at or above amount + fee; the final amount is the least multiple of the to-precision's unit at or above amount × rate; the codes, amount, fee, rate and time are kept as given |
| Converter.NewQuote | converter.go:154-190 | No registry gives an error and no quote. Otherwise the errors of the rate, the from lookup and the to lookup are returned in that order, and when all three succeed there is a quote. A quote copies the codes, amount, fee, rate and time unchanged, and both amounts are the least multiples at or above their exact values at the looked-up precisions |
| ConverterFacts.IndexOfCodeIgnoresCase | converter.go:63-67 | The search finds the same position for two queries that are equal ignoring case |
| ConverterFacts.FindCurrencyIgnoresCase | converter.go:55-70 | Two queries equal ignoring case find the same record, or both fail; a not-found error names each query as it was written |
| ConverterFacts.FindUpperCode | converter.go:102-109 | Looking up the upper-cased code finds exactly what the caller's code finds |
| ConverterFacts.SameUpperIffEqualFold | converter.go:93-98 | The source's comparisons of twice upper-cased codes decide the same as case-insensitive equality, in both directions |
| ConverterFacts.ConstructedRegistryIsNotEmpty | converter.go:47-61 | A registry built successfully never reports the empty-source error, and a lookup in it succeeds exactly when some record matches the code |
| ConverterFacts.RateSameCurrency | converter.go:97-100 | When from and to are equal ignoring case the rate is 1 and no division happens, for every registry and base, including an empty registry and an unknown base |
| ConverterFacts.RateBaseMissing | converter.go:102-105 | For two different currencies, a base the lookup does not find, including in an empty registry, gives base-not-found and hides the lookup's own error |
| ConverterFacts.RateFromBase | converter.go:107-115 | From the base currency, the rate is the to-currency's sell rate, or not-found naming the upper-cased to code |
| ConverterFacts.RateToBase | converter.go:117-124 | Into the base currency, the rate is 1 / the from-currency's buy rate, not its sell rate, or not-found naming the upper-cased from code |
| ConverterFacts.RateCross | converter.go:126-137 | Between two non-base currencies, from is looked up before to. The rate is (1 / from's buy rate) × to's sell rate, and a missing from is reported even when to is missing too |
| ConverterFacts.RateNeedsAllThree | converter.go:97-137 | For two different currencies a rate is produced exactly when the base, from and to are all registered |
| ConverterFacts.QuoteFollowsRate | converter.go:164-177 | For two different currencies a quote is produced exactly when the rate is; the lookups after the rate cannot fail then |
| ConverterFacts.QuoteSameCurrency | converter.go:164-177 | For one currency written twice, the rate of 1 always succeeds. The quote fails exactly when that currency's lookup fails, with that lookup's own error, and otherwise has rate 1 |
| ConverterFacts.UnroundedAtLeastInt32 | converter.go:184-187 | Every precision whose int32 conversion is the least int32 leaves every amount unrounded |
| ConverterFacts.UnroundedExample | converter.go:184 | The precision 2^31, which a 64-bit Go int can hold, converts to the least int32, and 105.5 is then deducted as 105.5 |
| ConverterFacts.QuoteKeepsExactDeduction | converter.go:184 | An amount + fee that already has the from-currency's number of decimal places is deducted unchanged |
| ConverterExamples.SameCurrencyExample | converter_test.go:76-82 | USD to USD has rate 1; so does gbp to GBP under an unregistered base |
| ConverterExamples.BaseToTargetExample | converter_test.go:83-89 | USD to EUR with base USD has rate 1.18, the euro's sell rate |
| ConverterExamples.TargetToBaseExample | converter_test.go:90-96 | EUR to USD has rate 1 / 0.85, which rounds up at two places to 1.18 |
| ConverterExamples.CrossRateExample | converter_test.go:97-103 | EUR to JPY has rate (1 / 0.85) × 123.45, which rounds up at two places to 145.24 |
| ConverterExamples.MissingCodeExamples | converter_test.go:104-124 | An unknown base gives base-not-found; an unknown from or to gives not-found naming ZZZ |
| ConverterExamples.FindCurrencyExamples | converter_test.go:45-64 | In the test's registry of USD 100/101 and EUR 120/121, USD finds the USD record, and so does usd; GBP is not found and the error names GBP; an empty registry gives the empty-source error |
| ConverterExamples.NewCurrenciesExamples | converter_test.go:12-42 | The test's two-record list is kept as it is, with two records; a single record holding only a code is kept; an empty list is refused with the empty-source error |
| ConverterExamples.QuoteExample | converter_test.go:150-189 | 100 USD plus a fee of 5, into EUR at 0.95: the rate is 0.95, the amount to deduct is 105 and the final amount is 95 |
| ConverterExamples.QuoteWithoutRegistryExample | converter_test.go:192-196 | Without a registry, NewQuote returns the missing-registry error and no quote |

## Left out

- The JSON re-encoding step of `NewCurrencies` (converter.go:37-45) and its decode errors are not modelled. The model starts from the decoded list of records.
- The read-write lock (converter.go:31, 56-57) is not modelled. It guards only the lookups' reads; it does not stop a caller from writing to a record through the pointer `FindCurrency` returns (see the line on `FindCurrency` below), and the model has no such writes.
- `time.Now()` (converter.go:188) is not called. The quote's time is the caller's `now` parameter.
- Decimals are exact reals. The decimal library's division rounds its quotient to 16 decimal places, which the model does not reproduce. Because the quote then rounds up, this can change a final amount by a whole unit of the to-currency's precision. Take 3 units of a currency with buy rate 1.5, quoted into the base at two places. The library's rate is 0.6666666666666667, so 3 × rate is just above 2 and rounds up to 2.01; the model's rate is exactly 2/3 and its final amount is 2.00.
- The library panics when it divides by a zero buy rate. `CalculateRate` and `NewQuote` therefore require `DivisionSafe`, which holds exactly when the source would not reach that division with a zero buy rate.
- Upper-casing and case folding cover ASCII letters only. Other characters are treated as having no case, unlike Go's Unicode tables.
- `FindCurrency` returns a copy of the record instead of a pointer into the registry (converter.go:65). In Go the record's fields are exported, so a caller can write through that pointer, for instance set a buy rate to zero, and later `CalculateRate` and `NewQuote` calls on the same registry see the change, up to the division panic. The model's records are values: it describes a registry that nobody writes to after construction, and does not model writes through the returned pointer.
- Precision is an unbounded integer. Go holds it in an `int`, which is as wide as the platform's word (32 or 64 bits); the model does not bound it. The `int32` conversion before rounding is modelled by `ToInt32`, and the library's rounding at an `int32` number of places, including its wrap-around at the least `int32`, by `RoundCeil32`.
- The error texts ("currency %s not found", "currency object empty. shouldnt be") are replaced by error kinds. The not-found kind carries the code.
- mm/m.go is a demo program that only prints, and it calls a free-function API that does not exist in converter.go. It is not modelled. The test file uses the same outdated API, so its cases appear as lemmas about the model rather than as calls.

=== FILE: ascii.dfy ===
/**
 This module models the two string operations the converter relies on,
 `strings.ToUpper` and `strings.EqualFold`, restricted to their ASCII
 behaviour: the letters a..z and A..Z are the only characters with a case.
 */
module Ascii {

  predicate IsLower(c: char) {
    'a' <= c <= 'z'
  }

  predicate IsUpperLetter(c: char) {
    'A' <= c <= 'Z'
  }

  /** Upper-cases one character; only a..z change. */
  function UpperChar(c: char): char {
    if IsLower(c) then (c as int - 32) as char else c
  }

  /** Simple case folding of two characters: the same character, or the
      upper- and lower-case form of one ASCII letter. */
  predicate FoldEqChar(a: char, b: char) {
    || a == b
    || (IsUpperLetter(a) && b as int == a as int + 32)
    || (IsUpperLetter(b) && a as int == b as int + 32)
  }

  /** Case-insensitive string equality. */
  predicate EqualFold(s: string, t: string) {
    && |s| == |t|
    && forall i :: 0 <= i < |s| ==> FoldEqChar(s[i], t[i])
  }

  /** No lower-case letter occurs in `s`. */
  predicate IsUpper(s: string) {
    forall i :: 0 <= i < |s| ==> !IsLower(s[i])
  }

  /** Upper-cases a string: the result spells the same word ignoring case,
      and contains no lower-case letter. */
  function ToUpper(s: string): (r: string)
    ensures IsUpper(r)
    ensures EqualFold(s, r)
  {
    seq(|s|, i requires 0 <= i < |s| => UpperChar(s[i]))
  }

  /** Folding two characters agrees with comparing their upper-case forms. */
  lemma FoldEqCharIffSameUpper(a: char, b: char)
    ensures FoldEqChar(a, b) <==> UpperChar(a) == UpperChar(b)
  {
  }

  /** Case-insensitive equality is equality after upper-casing. */
  lemma EqualFoldIffSameUpper(s: string, t: string)
    ensures EqualFold(s, t) <==> ToUpper(s) == ToUpper(t)
  {
    if EqualFold(s, t) {
      forall i | 0 <= i < |s|
        ensures ToUpper(s)[i] == ToUpper(t)[i]
      {
        FoldEqCharIffSameUpper(s[i], t[i]);
      }
    }
    if ToUpper(s) == ToUpper(t) {
      forall i | 0 <= i < |s|
        ensures FoldEqChar(s[i], t[i])
      {
        assert ToUpper(s)[i] == ToUpper(t)[i];
        FoldEqCharIffSameUpper(s[i], t[i]);
      }
    }
  }

  /** Upper-casing leaves an upper-case string alone. */
  lemma ToUpperOfUpper(s: string)
    requires IsUpper(s)
    ensures ToUpper(s) == s
  {
  }

  /** Upper-casing twice is upper-casing once. */
  lemma ToUpperIdempotent(s: string)
    ensures ToUpper(ToUpper(s)) == ToUpper(s)
  {
    ToUpperOfUpper(ToUpper(s));
  }

  /** Case-insensitive equality is an equivalence relation. */
  lemma EqualFoldIsEquivalence(s: string, t: string, u: string)
    ensures EqualFold(s, s)
    ensures EqualFold(s, t) ==> EqualFold(t, s)
    ensures EqualFold(s, t) && EqualFold(t, u) ==> EqualFold(s, u)
  {
    EqualFoldIffSameUpper(s, s);
    EqualFoldIffSameUpper(s, t);
    EqualFoldIffSameUpper(t, s);
    EqualFoldIffSameUpper(t, u);
    EqualFoldIffSameUpper(s, u);
  }
}

=== FILE: converter.dfy ===
/**
 The currency registry and the rate and quote calculator of converter.go.

 A registry is an ordered list of currency records looked up by ISO code
 ignoring case. Rates are quoted against a base currency: the registry sells
 a currency at its sell rate and buys it back at its buy rate. A quote
 rounds the amount to deduct and the converted amount up at the precision
 of the currency each is expressed in.
 */
module Converter {
  import opened Ascii
  import opened Decimal

  /** One currency: its ISO code, the number of decimal places amounts in it
      are rounded to, and its buy and sell rates, both quoted against the
      base currency. */
  datatype Currency = Currency(isoCode: string, precision: int, buyRate: real, sellRate: real)

  /** The registry; the source's read-write lock has no behavioural effect
      and is not part of the model. */
  datatype Currencies = Currencies(currencies: seq<Currency>)

  datatype Error =
    | EmptyCurrencySource
    | CurrencyNotFound(code: string)
    | BaseCurrencyNotFound
    | MissingRegistry

  datatype Result<+T> = Ok(value: T) | Err(error: Error) {
    predicate IsFailure() {
      Err?
    }

    function PropagateFailure<U>(): Result<U>
      requires Err?
    {
      Err(error)
    }

    function Extract(): T
      requires Ok?
    {
      value
    }
  }

  datatype Option<+T> = None | Some(value: T)

  /** Wall-clock time of a quote, supplied by the caller. */
  type Timestamp = int

  /** A quote for converting `fromAmount` of `fromCurrency` into
      `toCurrency`. */
  datatype Quote = Quote(
    baseCurrency: string,
    fromCurrency: string,
    fromAmount: real,
    fee: real,
    amountToDeduct: real,
    rate: real,
    toCurrency: string,
    finalAmount: real,
    date: Timestamp)

  /** The record answers to `code`, ignoring case. */
  predicate Matches(c: Currency, code: string) {
    EqualFold(c.isoCode, code)
  }

  /** `i` is the position of the first record answering to `code`. */
  ghost predicate IsFirstMatch(cs: seq<Currency>, code: string, i: int) {
    && 0 <= i < |cs|
    && Matches(cs[i], code)
    && forall j :: 0 <= j < i ==> !Matches(cs[j], code)
  }

  /** Builds a registry from an already decoded list of records; an empty
      list is refused, any other list is kept as it is. */
  function NewCurrencies(decoded: seq<Currency>): (r: Result<Currencies>)
    ensures r.Err? <==> |decoded| == 0
    ensures r.Err? ==> r.error == EmptyCurrencySource
    ensures r.Ok? ==> r.value.currencies == decoded
  {
    if |decoded| == 0 then Err(EmptyCurrencySource) else Ok(Currencies(decoded))
  }

  /** The position of the first record at or after `from` that answers to
      `code`, if any. */
  function IndexOfCode(cs: seq<Currency>, code: string, from: nat): (r: Option<nat>)
    requires from <= |cs|
    ensures r.Some? ==>
      && from <= r.value < |cs|
      && Matches(cs[r.value], code)
      && forall j :: from <= j < r.value ==> !Matches(cs[j], code)
    ensures r.None? ==> forall j :: from <= j < |cs| ==> !Matches(cs[j], code)
    decreases |cs| - from
  {
    if from == |cs| then None
    else if Matches(cs[from], code) then Some(from)
    else IndexOfCode(cs, code, from + 1)
  }

  /** Looks a currency up by ISO code, ignoring case. An empty registry is
      reported before any search; otherwise the first matching record is
      returned, or a not-found error naming the code exactly as queried. */
  function FindCurrency(reg: Currencies, code: string): (r: Result<Currency>)
    ensures |reg.currencies| == 0 ==> r == Err(EmptyCurrencySource)
    ensures r.Ok? ==> Matches(r.value, code)
    ensures r.Ok? ==> exists i :: IsFirstMatch(reg.currencies, code, i) && reg.currencies[i] == r.value
    ensures r.Err? && |reg.currencies| > 0 ==>
      && r.error == CurrencyNotFound(code)
      && forall i :: 0 <= i < |reg.currencies| ==> !Matches(reg.currencies[i], code)
  {
    if |reg.currencies| == 0 then Err(EmptyCurrencySource)
    else match IndexOfCode(reg.currencies, code, 0)
      case Some(i) => Ok(reg.currencies[i])
      case None => Err(CurrencyNotFound(code))
  }

  /** CalculateRate never reaches its division by the from-currency's buy
      rate with a zero buy rate; the decimal library panics on that division.
      The division happens only when the two currencies differ, the base is
      registered, `from` is not the base, `from` is registered, and (in the
      cross case) `to` is registered too. */
  predicate DivisionSafe(reg: Currencies, base: string, from: string, to: string) {
    var b, f, t := ToUpper(ToUpper(base)), ToUpper(ToUpper(from)), ToUpper(ToUpper(to));
    || f == t
    || FindCurrency(reg, b).Err?
    || f == b
    || match FindCurrency(reg, f)
       case Err(_) => true
       case Ok(c) => c.buyRate != 0.0 || (t != b && FindCurrency(reg, t).Err?)
  }

  /** The exchange rate for converting `from` into `to`, all rates being
      quoted against `base`. The value of each branch, and when it succeeds,
      is stated in ConverterFacts: RateSameCurrency, RateBaseMissing,
      RateFromBase, RateToBase and RateCross, which between them cover every
      input, and RateNeedsAllThree. */
  function CalculateRate(reg: Currencies, base: string, from: string, to: string): (r: Result<real>)
    requires DivisionSafe(reg, base, from, to)
    ensures r.Err? ==> r.error.BaseCurrencyNotFound? || r.error.CurrencyNotFound?
    ensures r.Err? && r.error.CurrencyNotFound? ==> IsUpper(r.error.code)
  {
    var base := ToUpper(ToUpper(base));
    var from := ToUpper(ToUpper(from));
    var to := ToUpper(ToUpper(to));
    if from == to then
      // the same currency: no lookup at all
      Ok(1.0)
    else if FindCurrency(reg, base).Err? then
      Err(BaseCurrencyNotFound)
    else if from == base then
      // buying `to` with the base currency
      var toCurrency :- FindCurrency(reg, to);
      Ok(toCurrency.sellRate)
    else if to == base then
      // selling `from` back for the base currency
      var fromCurrency :- FindCurrency(reg, from);
      Ok(Div(1.0, fromCurrency.buyRate))
    else
      // cross rate: `from` to base, then base to `to`
      var fromCurrency :- FindCurrency(reg, from);
      var toCurrency :- FindCurrency(reg, to);
      Ok(Div(1.0, fromCurrency.buyRate) * toCurrency.sellRate)
  }

  /** The amount to deduct is amount plus fee rounded up at `fromPrecision`,
      and the final amount is amount times rate rounded up at `toPrecision`,
      both precisions read as 32-bit integers; a precision that reads as the
      least `int32` leaves its amount unrounded, as the library does. */
  ghost predicate RoundedUp(q: Quote, fromPrecision: int, toPrecision: int) {
    && RoundedFor(q.amountToDeduct, q.fromAmount + q.fee, fromPrecision)
    && RoundedFor(q.finalAmount, q.fromAmount * q.rate, toPrecision)
  }

  /** `r` is `x` rounded as the library rounds at `precision` read as an
      `int32`. */
  ghost predicate RoundedFor(r: real, x: real, precision: int) {
    IsCeiling32(r, x, ToInt32(precision))
  }

  /** An amount rounded up at a currency's precision, which the source
      converts to a 32-bit integer before calling the library's rounding. */
  function RoundedAt(amount: real, precision: int): (r: real)
    ensures RoundedFor(r, amount, precision)
  {
    RoundCeil32(amount, ToInt32(precision))
  }

  /** The quote for a known rate and the precisions of the two currencies. */
  function Priced(base: string, from: string, to: string, fromAmount: real, fee: real, rate: real,
                  fromPrecision: int, toPrecision: int, now: Timestamp): (q: Quote)
    ensures q.baseCurrency == base && q.fromCurrency == from && q.toCurrency == to
    ensures q.fromAmount == fromAmount && q.fee == fee && q.rate == rate && q.date == now
    ensures RoundedUp(q, fromPrecision, toPrecision)
  {
    var q := Quote(
      baseCurrency := base,
      fromCurrency := from,
      fromAmount := fromAmount,
      fee := fee,
      amountToDeduct := RoundedAt(fromAmount + fee, fromPrecision),
      rate := rate,
      toCurrency := to,
      finalAmount := RoundedAt(fromAmount * rate, toPrecision),
      date := now);
    RoundedUpIntro(q, fromPrecision, toPrecision);
    q
  }

  lemma RoundedUpIntro(q: Quote, fromPrecision: int, toPrecision: int)
    requires RoundedFor(q.amountToDeduct, q.fromAmount + q.fee, fromPrecision)
    requires RoundedFor(q.finalAmount, q.fromAmount * q.rate, toPrecision)
    ensures RoundedUp(q, fromPrecision, toPrecision)
  {
  }

  /** Builds a quote. With no registry, or when the rate or either currency
      cannot be found, the first error met is returned and no quote. The
      amount to deduct (amount plus fee) is rounded up at the from-currency's
      precision and the final amount (amount times rate) at the
      to-currency's precision; the codes, amount, fee and rate are kept as
      given. */
  function NewQuote(rateSource: Option<Currencies>, base: string, from: string, to: string,
                    fromAmount: real, fee: real, now: Timestamp): (r: Result<Quote>)
    requires rateSource.Some? ==> DivisionSafe(rateSource.value, base, from, to)
    ensures rateSource.None? ==> r == Err(MissingRegistry)
    ensures rateSource.Some? && CalculateRate(rateSource.value, base, from, to).Err? ==>
      r == Err(CalculateRate(rateSource.value, base, from, to).error)
    ensures rateSource.Some? && CalculateRate(rateSource.value, base, from, to).Ok? ==>
      && (FindCurrency(rateSource.value, from).Err? ==> r == Err(FindCurrency(rateSource.value, from).error))
      && (FindCurrency(rateSource.value, from).Ok? && FindCurrency(rateSource.value, to).Err? ==>
            r == Err(FindCurrency(rateSource.value, to).error))
    ensures
      && rateSource.Some?
      && CalculateRate(rateSource.value, base, from, to).Ok?
      && FindCurrency(rateSource.value, from).Ok?
      && FindCurrency(rateSource.value, to).Ok?
      ==> r.Ok?
    ensures r.Ok? ==> rateSource.Some?
    ensures r.Ok? ==>
      && r.value.baseCurrency == base && r.value.fromCurrency == from && r.value.toCurrency == to
      && r.value.fromAmount == fromAmount && r.value.fee == fee && r.value.date == now
    ensures r.Ok? ==> CalculateRate(rateSource.value, base, from, to) == Ok(r.value.rate)
    ensures r.Ok? ==>
      var infoFrom, infoTo := FindCurrency(rateSource.value, from), FindCurrency(rateSource.value, to);
      && infoFrom.Ok? && infoTo.Ok?
      && RoundedUp(r.value, infoFrom.value.precision, infoTo.value.precision)
  {
    if rateSource.None? then Err(MissingRegistry)
    else
      var reg := rateSource.value;
      var rate :- CalculateRate(reg, base, from, to);
      var infoFrom :- FindCurrency(reg, from);
      var infoTo :- FindCurrency(reg, to);
      Ok(Priced(base, from, to, fromAmount, fee, rate, infoFrom.precision, infoTo.precision, now))
  }
}

=== FILE: converter_examples.dfy ===
/**
 The worked numbers of the converter's test cases, proved about the model.
 */
module ConverterExamples {
  import opened Ascii
  import opened Decimal
  import opened Converter
  import opened ConverterFacts

  const usd := Currency("USD", 2, 1.0, 1.0)
  const eur := Currency("EUR", 2, 0.85, 1.18)
  const jpy := Currency("JPY", 2, 0.0081, 123.45)

  /** The registry of the rate test cases, with the US dollar as base. */
  const rates := Currencies([usd, eur, jpy])

  /** Two codes that differ in one letter beyond case are different codes. */
  lemma DifferAt(s: string, t: string, i: int)
    requires 0 <= i < |s| && 0 <= i < |t|
    requires !FoldEqChar(s[i], t[i])
    ensures !EqualFold(s, t)
  {
  }

  lemma DistinctCodes()
    ensures !EqualFold("USD", "EUR") && !EqualFold("USD", "JPY") && !EqualFold("EUR", "JPY")
    ensures !EqualFold("EUR", "USD") && !EqualFold("JPY", "USD")
    ensures !EqualFold("USD", "ZZZ") && !EqualFold("EUR", "ZZZ") && !EqualFold("JPY", "ZZZ")
    ensures !EqualFold("ZZZ", "EUR")
    ensures !EqualFold("USD", "GBP") && !EqualFold("EUR", "GBP") && !EqualFold("JPY", "GBP")
  {
    DifferAt("USD", "EUR", 0);
    DifferAt("USD", "JPY", 0);
    DifferAt("EUR", "JPY", 0);
    DifferAt("EUR", "USD", 0);
    DifferAt("JPY", "USD", 0);
    DifferAt("USD", "ZZZ", 0);
    DifferAt("EUR", "ZZZ", 0);
    DifferAt("JPY", "ZZZ", 0);
    DifferAt("ZZZ", "EUR", 0);
    DifferAt("USD", "GBP", 0);
    DifferAt("EUR", "GBP", 0);
    DifferAt("JPY", "GBP", 0);
  }

  lemma RatesLookups()
    ensures FindCurrency(rates, "USD") == Ok(usd)
    ensures FindCurrency(rates, "EUR") == Ok(eur)
    ensures FindCurrency(rates, "JPY") == Ok(jpy)
    ensures FindCurrency(rates, "ZZZ") == Err(CurrencyNotFound("ZZZ"))
  {
    DistinctCodes();
    var cs := rates.currencies;
    assert IndexOfCode(cs, "USD", 0) == Some(0);
    assert IndexOfCode(cs, "EUR", 1) == Some(1);
    assert IndexOfCode(cs, "JPY", 2) == Some(2);
    assert IndexOfCode(cs, "JPY", 1) == Some(2);
    assert IndexOfCode(cs, "ZZZ", 3) == None;
    assert IndexOfCode(cs, "ZZZ", 2) == None;
    assert IndexOfCode(cs, "ZZZ", 1) == None;
  }

  lemma UpperCodes()
    ensures ToUpper("USD") == "USD" && ToUpper("EUR") == "EUR"
    ensures ToUpper("JPY") == "JPY" && ToUpper("ZZZ") == "ZZZ"
  {
    ToUpperOfUpper("USD");
    ToUpperOfUpper("EUR");
    ToUpperOfUpper("JPY");
    ToUpperOfUpper("ZZZ");
  }

  /** Same currency: rate 1, even for a base that is not registered and a
      code in lower case. */
  lemma SameCurrencyExample()
    ensures CalculateRate(rates, "USD", "USD", "USD") == Ok(1.0)
    ensures CalculateRate(rates, "XXX", "gbp", "GBP") == Ok(1.0)
  {
    RateSameCurrency(rates, "USD", "USD", "USD");
    assert FoldEqChar('g', 'G') && FoldEqChar('b', 'B') && FoldEqChar('p', 'P');
    RateSameCurrency(rates, "XXX", "gbp", "GBP");
  }

  /** From the base into euros: the euro's sell rate, 1.18. */
  lemma BaseToTargetExample()
    ensures CalculateRate(rates, "USD", "USD", "EUR") == Ok(1.18)
  {
    RatesLookups();
    DistinctCodes();
    RateFromBase(rates, "USD", "USD", "EUR");
  }

  /** Rounding up at two decimal places, for a number known to lie in
      ((k-1)/100, k/100]. */
  lemma RoundTwoPlaces(x: real, k: int)
    requires (k - 1) as real / 100.0 < x <= k as real / 100.0
    ensures RoundCeil(x, 2) == k as real / 100.0
  {
    assert Scale(2) == 100.0;
    CeilingFromBounds(RoundCeil(x, 2), x, 2, k);
  }

  /** From euros into the base: 1 / 0.85, which rounds up to 1.18. */
  lemma TargetToBaseExample()
    ensures DivisionSafe(rates, "USD", "EUR", "USD")
    ensures CalculateRate(rates, "USD", "EUR", "USD") == Ok(Div(1.0, 0.85))
    ensures RoundCeil(Div(1.0, 0.85), 2) == 1.18
  {
    RatesLookups();
    DistinctCodes();
    UpperCodes();
    RateToBase(rates, "USD", "EUR", "USD");
    RoundTwoPlaces(Div(1.0, 0.85), 118);
  }

  /** From euros into yen through the base: (1 / 0.85) * 123.45, which
      rounds up to 145.24. */
  lemma CrossRateExample()
    ensures DivisionSafe(rates, "USD", "EUR", "JPY")
    ensures CalculateRate(rates, "USD", "EUR", "JPY") == Ok(Div(1.0, 0.85) * 123.45)
    ensures RoundCeil(Div(1.0, 0.85) * 123.45, 2) == 145.24
  {
    RatesLookups();
    DistinctCodes();
    UpperCodes();
    RateCross(rates, "USD", "EUR", "JPY");
    RoundTwoPlaces(Div(1.0, 0.85) * 123.45, 14524);
  }

  /** Unknown codes: an unknown base is reported as the base, an unknown
      currency under its code. */
  lemma MissingCodeExamples()
    ensures CalculateRate(rates, "ZZZ", "USD", "EUR") == Err(BaseCurrencyNotFound)
    ensures DivisionSafe(rates, "USD", "ZZZ", "EUR")
    ensures CalculateRate(rates, "USD", "ZZZ", "EUR") == Err(CurrencyNotFound("ZZZ"))
    ensures DivisionSafe(rates, "USD", "EUR", "ZZZ")
    ensures CalculateRate(rates, "USD", "EUR", "ZZZ") == Err(CurrencyNotFound("ZZZ"))
  {
    RatesLookups();
    DistinctCodes();
    UpperCodes();
    RateBaseMissing(rates, "ZZZ", "USD", "EUR");
    RateCross(rates, "USD", "ZZZ", "EUR");
    RateCross(rates, "USD", "EUR", "ZZZ");
  }

  /** The records of the lookup and construction test cases: precision 0,
      buy and sell rates 100/101 for dollars and 120/121 for euros. */
  const lookupUsd := Currency("USD", 0, 100.0, 101.0)
  const lookupEur := Currency("EUR", 0, 120.0, 121.0)
  const lookupRates := Currencies([lookupUsd, lookupEur])

  /** Lookup: found, found ignoring case, not found naming the query, and an
      empty registry reported before any search. */
  lemma FindCurrencyExamples()
    ensures FindCurrency(lookupRates, "USD") == Ok(lookupUsd)
    ensures FindCurrency(lookupRates, "usd") == Ok(lookupUsd)
    ensures FindCurrency(lookupRates, "GBP") == Err(CurrencyNotFound("GBP"))
    ensures FindCurrency(Currencies([]), "USD") == Err(EmptyCurrencySource)
  {
    LowerCaseLookup();
    UnknownLookup();
  }

  lemma LowerCaseLookup()
    ensures FindCurrency(lookupRates, "usd") == Ok(lookupUsd)
  {
    assert IndexOfCode(lookupRates.currencies, "usd", 0) == Some(0);
  }

  lemma UnknownLookup()
    ensures FindCurrency(lookupRates, "GBP") == Err(CurrencyNotFound("GBP"))
  {
    DistinctCodes();
    assert IndexOfCode(lookupRates.currencies, "GBP", 1) == None;
  }

  /** Construction: the two-record list is kept, as is a single record with
      only a code (every other field zero); an empty list is refused. */
  lemma NewCurrenciesExamples()
    ensures NewCurrencies([lookupUsd, lookupEur]) == Ok(lookupRates)
    ensures |NewCurrencies([lookupUsd, lookupEur]).value.currencies| == 2
    ensures NewCurrencies([Currency("USD", 0, 0.0, 0.0)]) == Ok(Currencies([Currency("USD", 0, 0.0, 0.0)]))
    ensures NewCurrencies([]) == Err(EmptyCurrencySource)
  {
  }

  const quoteEur := Currency("EUR", 2, 0.95, 0.95)

  /** The registry of the quote test case. */
  const quoteRates := Currencies([usd, quoteEur])

  /** 100 dollars with a fee of 5 into euros at 0.95: deduct 105, pay out 95. */
  lemma QuoteExample(now: Timestamp)
    ensures DivisionSafe(quoteRates, "USD", "USD", "EUR")
    ensures NewQuote(Some(quoteRates), "USD", "USD", "EUR", 100.0, 5.0, now).Ok?
    ensures var q := NewQuote(Some(quoteRates), "USD", "USD", "EUR", 100.0, 5.0, now).value;
      && q.rate == 0.95
      && q.amountToDeduct == 105.0
      && q.finalAmount == 95.0
  {
    DistinctCodes();
    assert IndexOfCode(quoteRates.currencies, "USD", 0) == Some(0);
    assert IndexOfCode(quoteRates.currencies, "EUR", 1) == Some(1);
    RateFromBase(quoteRates, "USD", "USD", "EUR");
    RoundTwoPlaces(105.0, 10500);
    RoundTwoPlaces(100.0 * 0.95, 9500);
  }

  /** No registry: an error and no quote. */
  lemma QuoteWithoutRegistryExample(now: Timestamp)
    ensures NewQuote(None, "USD", "USD", "EUR", 100.0, 5.0, now) == Err(MissingRegistry)
  {
  }
}

=== FILE: converter_facts.dfy ===
/**
 Properties of the converter, stated in terms of the caller's codes and of
 the records the registry holds: lookup ignores case, the rate policy takes
 its branches in the source's order and reports the error the source
 reports, and a quote fails exactly when its rate or its currencies do.
 */
module ConverterFacts {
  import opened Ascii
  import opened Decimal
  import opened Converter

  /** The first-match search gives the same answer for two codes that are
      equal ignoring case. */
  lemma {:induction false} IndexOfCodeIgnoresCase(cs: seq<Currency>, a: string, b: string, from: nat)
    requires EqualFold(a, b)
    requires from <= |cs|
    ensures IndexOfCode(cs, a, from) == IndexOfCode(cs, b, from)
    decreases |cs| - from
  {
    if from < |cs| {
      EqualFoldIsEquivalence(cs[from].isoCode, a, b);
      EqualFoldIsEquivalence(cs[from].isoCode, b, a);
      EqualFoldIsEquivalence(a, b, a);
      if !Matches(cs[from], a) {
        IndexOfCodeIgnoresCase(cs, a, b, from + 1);
      }
    }
  }

  /** Looking up two codes that are equal ignoring case finds the same
      record, or fails for the same reason; a not-found error names each
      query as it was given. */
  lemma FindCurrencyIgnoresCase(reg: Currencies, a: string, b: string)
    requires EqualFold(a, b)
    ensures FindCurrency(reg, a).Ok? <==> FindCurrency(reg, b).Ok?
    ensures FindCurrency(reg, a).Ok? ==> FindCurrency(reg, a).value == FindCurrency(reg, b).value
    ensures FindCurrency(reg, a).Err? && |reg.currencies| > 0 ==>
      FindCurrency(reg, a).error == CurrencyNotFound(a) && FindCurrency(reg, b).error == CurrencyNotFound(b)
  {
    if |reg.currencies| > 0 {
      IndexOfCodeIgnoresCase(reg.currencies, a, b, 0);
    }
  }

  /** Looking up the upper-cased form of a code finds what the code finds. */
  lemma FindUpperCode(reg: Currencies, code: string)
    ensures FindCurrency(reg, ToUpper(ToUpper(code))).Ok? <==> FindCurrency(reg, code).Ok?
    ensures FindCurrency(reg, code).Ok? ==>
      FindCurrency(reg, ToUpper(ToUpper(code))).value == FindCurrency(reg, code).value
  {
    ToUpperIdempotent(code);
    EqualFoldIsEquivalence(code, ToUpper(code), code);
    FindCurrencyIgnoresCase(reg, code, ToUpper(code));
  }

  /** Upper-casing twice decides the same comparisons as case-insensitive
      equality. */
  lemma SameUpperIffEqualFold(a: string, b: string)
    ensures ToUpper(ToUpper(a)) == ToUpper(ToUpper(b)) <==> EqualFold(a, b)
  {
    ToUpperIdempotent(a);
    ToUpperIdempotent(b);
    EqualFoldIffSameUpper(a, b);
  }

  /** A registry that was built successfully is never reported empty. */
  lemma ConstructedRegistryIsNotEmpty(decoded: seq<Currency>, code: string)
    requires NewCurrencies(decoded).Ok?
    ensures FindCurrency(NewCurrencies(decoded).value, code) != Err(EmptyCurrencySource)
    ensures FindCurrency(NewCurrencies(decoded).value, code).Ok? <==>
      exists i :: 0 <= i < |decoded| && Matches(decoded[i], code)
  {
    var reg := NewCurrencies(decoded).value;
    if FindCurrency(reg, code).Ok? {
      var i :| IsFirstMatch(reg.currencies, code, i) && reg.currencies[i] == FindCurrency(reg, code).value;
      assert Matches(decoded[i], code);
    }
  }

  /** Converting a currency into itself (ignoring case) has rate 1 and looks
      nothing up, so neither the base nor the currency need be registered. */
  lemma RateSameCurrency(reg: Currencies, base: string, from: string, to: string)
    requires EqualFold(from, to)
    ensures DivisionSafe(reg, base, from, to) && CalculateRate(reg, base, from, to) == Ok(1.0)
  {
    SameUpperIffEqualFold(from, to);
  }

  /** For two different currencies a missing base is reported as such,
      whatever the lookup of the base said, including an empty registry. */
  lemma RateBaseMissing(reg: Currencies, base: string, from: string, to: string)
    requires !EqualFold(from, to)
    requires FindCurrency(reg, base).Err?
    ensures DivisionSafe(reg, base, from, to) && CalculateRate(reg, base, from, to) == Err(BaseCurrencyNotFound)
  {
    SameUpperIffEqualFold(from, to);
    FindUpperCode(reg, base);
  }

  /** Buying `to` with the base currency costs `to`'s sell rate; a missing
      `to` is reported under its upper-cased code. */
  lemma RateFromBase(reg: Currencies, base: string, from: string, to: string)
    requires !EqualFold(from, to)
    requires EqualFold(from, base)
    requires FindCurrency(reg, base).Ok?
    ensures DivisionSafe(reg, base, from, to)
    ensures CalculateRate(reg, base, from, to) ==
      match FindCurrency(reg, to)
      case Ok(c) => Ok(c.sellRate)
      case Err(_) => Err(CurrencyNotFound(ToUpper(to)))
  {
    SameUpperIffEqualFold(from, to);
    SameUpperIffEqualFold(from, base);
    FindUpperCode(reg, base);
    FindUpperCode(reg, to);
    ToUpperIdempotent(to);
  }

  /** Selling `from` back for the base currency has rate 1 / `from`'s buy
      rate (not its sell rate); a missing `from` is reported under its
      upper-cased code. */
  lemma RateToBase(reg: Currencies, base: string, from: string, to: string)
    requires !EqualFold(from, to)
    requires EqualFold(to, base)
    requires FindCurrency(reg, base).Ok?
    requires DivisionSafe(reg, base, from, to)
    ensures FindCurrency(reg, from).Err? ==>
      CalculateRate(reg, base, from, to) == Err(CurrencyNotFound(ToUpper(from)))
    ensures FindCurrency(reg, from).Ok? ==>
      var f := FindCurrency(reg, from).value;
      f.buyRate != 0.0 && CalculateRate(reg, base, from, to) == Ok(Div(1.0, f.buyRate))
  {
    SameUpperIffEqualFold(from, to);
    SameUpperIffEqualFold(to, base);
    SameUpperIffEqualFold(from, base);
    EqualFoldIsEquivalence(from, base, to);
    EqualFoldIsEquivalence(to, base, from);
    FindUpperCode(reg, base);
    FindUpperCode(reg, from);
    ToUpperIdempotent(from);
  }

  /** Between two non-base currencies the rate goes through the base:
      1 / `from`'s buy rate times `to`'s sell rate. `from` is looked up
      first, so when both are missing the error names `from`. */
  lemma RateCross(reg: Currencies, base: string, from: string, to: string)
    requires !EqualFold(from, to)
    requires !EqualFold(from, base) && !EqualFold(to, base)
    requires FindCurrency(reg, base).Ok?
    requires DivisionSafe(reg, base, from, to)
    ensures FindCurrency(reg, from).Err? ==>
      CalculateRate(reg, base, from, to) == Err(CurrencyNotFound(ToUpper(from)))
    ensures FindCurrency(reg, from).Ok? && FindCurrency(reg, to).Err? ==>
      CalculateRate(reg, base, from, to) == Err(CurrencyNotFound(ToUpper(to)))
    ensures FindCurrency(reg, from).Ok? && FindCurrency(reg, to).Ok? ==>
      var f, t := FindCurrency(reg, from).value, FindCurrency(reg, to).value;
      f.buyRate != 0.0 && CalculateRate(reg, base, from, to) == Ok(Div(1.0, f.buyRate) * t.sellRate)
  {
    SameUpperIffEqualFold(from, to);
    SameUpperIffEqualFold(from, base);
    SameUpperIffEqualFold(to, base);
    FindUpperCode(reg, base);
    FindUpperCode(reg, from);
    FindUpperCode(reg, to);
    ToUpperIdempotent(from);
    ToUpperIdempotent(to);
    var f, t := ToUpper(ToUpper(from)), ToUpper(ToUpper(to));
    if FindCurrency(reg, f).Ok? && FindCurrency(reg, t).Ok? {
      var r := CalculateRate(reg, base, from, to);
      assert r.Ok?;
      var fc, tc := FindCurrency(reg, f).value, FindCurrency(reg, t).value;
      assert r.value == Div(1.0, fc.buyRate) * tc.sellRate;
      // the records found under the upper-cased codes are the caller's
      assert fc == FindCurrency(reg, from).value && tc == FindCurrency(reg, to).value;
      assert Div(1.0, fc.buyRate) * tc.sellRate ==
        Div(1.0, FindCurrency(reg, from).value.buyRate) * FindCurrency(reg, to).value.sellRate;
    }
  }

  /** Between two different currencies a rate is only produced when the
      base and both currencies are registered. */
  lemma RateNeedsAllThree(reg: Currencies, base: string, from: string, to: string)
    requires !EqualFold(from, to)
    requires DivisionSafe(reg, base, from, to)
    ensures CalculateRate(reg, base, from, to).Ok? <==>
      FindCurrency(reg, base).Ok? && FindCurrency(reg, from).Ok? && FindCurrency(reg, to).Ok?
  {
    if FindCurrency(reg, base).Err? {
      RateBaseMissing(reg, base, from, to);
    } else if EqualFold(from, base) {
      RateFromBase(reg, base, from, to);
      FindCurrencyIgnoresCase(reg, from, base);
    } else if EqualFold(to, base) {
      RateToBase(reg, base, from, to);
      FindCurrencyIgnoresCase(reg, to, base);
    } else {
      RateCross(reg, base, from, to);
    }
  }

  /** A quote between two different currencies is produced exactly when
      their rate is: the lookups after the rate cannot fail then. */
  lemma QuoteFollowsRate(reg: Currencies, base: string, from: string, to: string,
                         fromAmount: real, fee: real, now: Timestamp)
    requires !EqualFold(from, to)
    requires DivisionSafe(reg, base, from, to)
    ensures NewQuote(Some(reg), base, from, to, fromAmount, fee, now).Ok? <==>
      CalculateRate(reg, base, from, to).Ok?
  {
    RateNeedsAllThree(reg, base, from, to);
  }

  /** Quoting a currency into itself always gets its rate of 1, so the quote
      fails exactly when the currency is not registered, with the lookup's
      own error: the empty-registry error, or not-found naming the code as
      the caller wrote it. */
  lemma QuoteSameCurrency(reg: Currencies, base: string, from: string, to: string,
                          fromAmount: real, fee: real, now: Timestamp)
    requires EqualFold(from, to)
    ensures DivisionSafe(reg, base, from, to)
    ensures NewQuote(Some(reg), base, from, to, fromAmount, fee, now).Ok? <==> FindCurrency(reg, from).Ok?
    ensures FindCurrency(reg, from).Err? ==>
      NewQuote(Some(reg), base, from, to, fromAmount, fee, now) == Err(FindCurrency(reg, from).error)
    ensures FindCurrency(reg, from).Ok? ==>
      NewQuote(Some(reg), base, from, to, fromAmount, fee, now).value.rate == 1.0
  {
    RateSameCurrency(reg, base, from, to);
    FindCurrencyIgnoresCase(reg, from, to);
  }

  /** A precision that the source's `int32` conversion turns into the least
      `int32` leaves the amount unrounded, as the library's rounding does. */
  lemma UnroundedAtLeastInt32(amount: real, precision: int)
    requires ToInt32(precision) == MinInt32
    ensures RoundedAt(amount, precision) == amount
  {
    var r := RoundedAt(amount, precision);
    assert RoundedFor(r, amount, precision);
  }

  /** 2^31 is a valid Go `int` on a 64-bit platform; its `int32` conversion is
      the least `int32`, so 105.5 is left as it is. */
  lemma UnroundedExample()
    ensures ToInt32(0x8000_0000) == MinInt32
    ensures RoundedAt(105.5, 0x8000_0000) == 105.5
  {
    UnroundedAtLeastInt32(105.5, 0x8000_0000);
  }

  /** An amount plus fee that already has the from-currency's number of
      decimal places is deducted as it is. */
  lemma QuoteKeepsExactDeduction(reg: Currencies, base: string, from: string, to: string,
                                 fromAmount: real, fee: real, now: Timestamp)
    requires DivisionSafe(reg, base, from, to)
    requires NewQuote(Some(reg), base, from, to, fromAmount, fee, now).Ok?
    requires AtPrecision(fromAmount + fee, ToInt32(FindCurrency(reg, from).value.precision))
    ensures NewQuote(Some(reg), base, from, to, fromAmount, fee, now).value.amountToDeduct == fromAmount + fee
  {
    var q := NewQuote(Some(reg), base, from, to, fromAmount, fee, now).value;
    var places := ToInt32(FindCurrency(reg, from).value.precision);
    if places != MinInt32 {
      CeilingOfExact(q.amountToDeduct, fromAmount + fee, places);
    }
  }
}

=== FILE: decimal.dfy ===
/**
 This module models the exact-decimal operations the converter uses from its
 decimal library, with a decimal represented by a Dafny `real`: division,
 rounding towards positive infinity at a number of decimal places, and the
 `int32` conversion applied to the number of places.
 */
module Decimal {

  function Pow10(n: nat): (r: nat)
    ensures r >= 1
  {
    if n == 0 then 1 else 10 * Pow10(n - 1)
  }

  /** 10 raised to `places`, for any integer `places` (negative places give
      tens, hundreds, ...). */
  function Scale(places: int): (r: real)
    ensures r > 0.0
  {
    if places >= 0 then Pow10(places) as real else 1.0 / Pow10(-places) as real
  }

  predicate IsWhole(x: real) {
    x.Floor as real == x
  }

  /** `x` is a whole multiple of 10^-places, i.e. it has no digits beyond
      `places` decimal places. */
  predicate AtPrecision(x: real, places: int) {
    WholeAt(x, Scale(places))
  }

  /** `x` is a whole multiple of the unit 1/s. */
  predicate WholeAt(x: real, s: real) {
    IsWhole(x * s)
  }

  /** `r` is the least multiple of 10^-places that is at least `x`. */
  ghost predicate IsCeilingAt(r: real, x: real, places: int) {
    && AtPrecision(r, places)
    && x <= r
    && forall y :: AtPrecision(y, places) && x <= y ==> r <= y
  }

  /** The least integer that is at least `x`. */
  function Ceil(x: real): (c: int)
    ensures x <= c as real < x + 1.0
  {
    -((-x).Floor)
  }

  lemma CeilIsLeast(x: real, k: int)
    requires x <= k as real
    ensures Ceil(x) <= k
  {
  }

  lemma ScaleCancels(c: real, s: real)
    requires s > 0.0
    ensures (c / s) * s == c
  {
  }

  lemma ScaleMonotone(a: real, b: real, s: real)
    requires s > 0.0
    ensures a <= b <==> a * s <= b * s
  {
  }

  /** Rounds `x` up to `places` decimal places: the result is the least
      multiple of 10^-places not below `x`, and `x` itself when it already
      has at most `places` decimal places. */
  function RoundCeil(x: real, places: int): (r: real)
    ensures IsCeilingAt(r, x, places)
    ensures AtPrecision(x, places) ==> r == x
  {
    var s := Scale(places);
    var c := Ceil(x * s);
    RoundCeilFacts(x, s);
    c as real / s
  }

  lemma RoundCeilFacts(x: real, s: real)
    requires s > 0.0
    ensures var c := Ceil(x * s);
      && WholeAt(c as real / s, s)
      && x <= c as real / s
    ensures forall y :: WholeAt(y, s) && x <= y ==> Ceil(x * s) as real / s <= y
  {
    var c := Ceil(x * s);
    ScaleCancels(c as real, s);
    ScaleMonotone(x, c as real / s, s);
    forall y | WholeAt(y, s) && x <= y
      ensures c as real / s <= y
    {
      CeilBelowMultiple(x, s, y);
    }
  }

  /** Rounding `x` up never passes a multiple `y` of the unit with `x <= y`. */
  lemma CeilBelowMultiple(x: real, s: real, y: real)
    requires s > 0.0
    requires IsWhole(y * s) && x <= y
    ensures Ceil(x * s) as real / s <= y
  {
    var c := Ceil(x * s);
    ScaleMonotone(x, y, s);
    CeilIsLeast(x * s, (y * s).Floor);
    assert c as real <= y * s;
    ScaleCancels(c as real, s);
    ScaleMonotone(c as real / s, y, s);
  }

  /** There is only one least multiple of the unit above `x`. */
  lemma CeilingIsUnique(r1: real, r2: real, x: real, places: int)
    requires IsCeilingAt(r1, x, places) && IsCeilingAt(r2, x, places)
    ensures r1 == r2
  {
  }

  /** A number that already has `places` decimal places is its own ceiling. */
  lemma CeilingOfExact(r: real, x: real, places: int)
    requires IsCeilingAt(r, x, places)
    requires AtPrecision(x, places)
    ensures r == x
  {
  }

  /** When `x` lies in (k-1, k] units of 10^-places, its ceiling is k units. */
  lemma CeilingFromBounds(r: real, x: real, places: int, k: int)
    requires IsCeilingAt(r, x, places)
    requires (k - 1) as real / Scale(places) < x <= k as real / Scale(places)
    ensures r == k as real / Scale(places)
  {
    var s := Scale(places);
    forall y | WholeAt(y, s) && x <= y
      ensures r <= y
    {
      assert AtPrecision(y, places);
    }
    CeilingFromBoundsAt(r, x, s, k);
  }

  lemma CeilingFromBoundsAt(r: real, x: real, s: real, k: int)
    requires s > 0.0
    requires WholeAt(r, s) && x <= r
    requires forall y :: WholeAt(y, s) && x <= y ==> r <= y
    requires (k - 1) as real / s < x <= k as real / s
    ensures r == k as real / s
  {
    WholeUnits(k, s);
    CeilingAbove(r, x, s, k);
  }

  /** A whole number of units is a multiple of the unit. */
  lemma WholeUnits(k: int, s: real)
    requires s > 0.0
    ensures WholeAt(k as real / s, s)
  {
    ScaleCancels(k as real, s);
  }

  lemma CeilingAbove(r: real, x: real, s: real, k: int)
    requires s > 0.0
    requires WholeAt(r, s) && x <= r
    requires (k - 1) as real / s < x
    ensures k as real / s <= r
  {
    ScaleCancels(k as real, s);
    ScaleCancels((k - 1) as real, s);
    ScaleMonotone((k - 1) as real / s, x, s);
    ScaleMonotone(x, r, s);
    assert (k - 1) as real < r * s;
    assert (r * s).Floor >= k;
    ScaleMonotone(k as real / s, r, s);
  }

  /** Rounding up keeps the order of its arguments. */
  lemma RoundCeilMonotone(x: real, y: real, places: int)
    requires x <= y
    ensures RoundCeil(x, places) <= RoundCeil(y, places)
  {
    var ry := RoundCeil(y, places);
    assert AtPrecision(ry, places) && x <= ry;
  }

  /** The least `int32`. */
  const MinInt32: int := -0x8000_0000

  /** `r` is what the decimal library's `RoundCeil` gives for `x` at an
      `int32` number of places: the ceiling at `places`, except at the least
      `int32`, where the library's early exit negates `places` in 32 bits,
      the negation wraps back to the least `int32`, and `x` comes back
      unrounded. */
  ghost predicate IsCeiling32(r: real, x: real, places: int) {
    if places == MinInt32 then r == x else IsCeilingAt(r, x, places)
  }

  /** The decimal library's `RoundCeil`, whose number of places is an
      `int32`. */
  function RoundCeil32(x: real, places: int): (r: real)
    requires MinInt32 <= places < -MinInt32
    ensures places == MinInt32 ==> r == x
    ensures places != MinInt32 ==> IsCeilingAt(r, x, places)
  {
    if places == MinInt32 then x else RoundCeil(x, places)
  }

  /** Go's conversion of an `int` to `int32`: keeps the low 32 bits, read as
      a two's-complement number. */
  function ToInt32(p: int): (r: int)
    ensures -0x8000_0000 <= r < 0x8000_0000
    ensures (p - r) % 0x1_0000_0000 == 0
    ensures -0x8000_0000 <= p < 0x8000_0000 ==> r == p
  {
    (p + 0x8000_0000) % 0x1_0000_0000 - 0x8000_0000
  }

  /** Exact division; the library panics on a zero divisor. */
  function Div(a: real, b: real): (q: real)
    requires b != 0.0
    ensures q * b == a
  {
    a / b
  }
}
